=== FILE: README.md ===
# cruster's corruption core, in Dafny

cruster ("an image rustifier") decodes an image and runs three passes over
it, all drawing from one random generator:

1. `dissolve_block` copies to every pixel a source pixel at a jittered
   position. When a `gen_ratio` coin comes up the block offset is
   redrawn and the stride drift restarts at that row; otherwise both are
   carried in raster order.
2. `random_brightening` draws three channel lags and an offset for every
   pixel. It gathers red and alpha, blue and green from three source pixels
   of the same row and brightens each channel.
3. `chromatic_abberations` draws one horizontal shear for the whole image.
   It gathers red, blue and alpha from the sheared column and keeps the
   pixel's own green, then brightens as before.

The model has one module per part of `src/main.rs`:

- `Ints`: u8, u32 and i64 as bounded integers, with every wrap-around,
  `try_into`, `unwrap_or(u32::MAX)` and Rust `%` written out.
- `Pixels`: `Rgba` pixels and images addressed by (x, y), plus the grid
  construction the two later passes use.
- `Primitives`: the helpers `modified_pixel`, `offset` and
  `brighten_pixels`.
- `Options`: the numeric command-line options.
- `Dissolve`, `Brightening` and `Aberration`: the three passes.
- `Pipeline`: `Corrupter::new` and the chain `main` runs.

Each pass is a loop method written the way the source writes it: x outer,
y inner, one pixel appended per visit, in the order `put_pixel` writes
them. It is proved equal to a functional description of its output and
of the draws it takes. The generator is a stream `d: nat -> Sample` of
draws, one per call the source makes on it. A draw is read as a coin, an
i64 or a u32, depending on what the call site asks for. A pass that starts at
position `pos` returns the position where it stopped.

All three passes read the source image `img` and overwrite every pixel of
`buffer`. So the written image is the aberration pass's output alone. The
first pass is where a run panics, when `gen_ratio` rejects its arguments.
Otherwise the first two passes matter only through the draws they take,
which decide where the one aberration draw lands (`Pipeline.Corrupt`).

Where a natural reading of the options and the code disagree, the model
follows the code:

- **All-zero options do not give the identity.** The two later passes bind
  `(b, g)` to channels 1 and 2 and write `[r, g, b, a]`. So green and blue
  are always exchanged, and a run with every option zero writes the source
  with green and blue swapped (`Pipeline.ZeroRunSwaps`,
  `Pipeline.ZeroRunChanges`).
- **Empty images do not fail.** An image with no rows or no columns is
  allowed. The scans then visit nothing and never call `modified_pixel` or
  `gen_ratio`, so a run writes an empty image after the one shear draw
  (`Pipeline.EmptyImageDraws`).

## Model

| member | source | states |
|---|---|---|
| Ints.WrapU8 | src/main.rs:97-98 | `Wrapping<u8>` arithmetic gives the one u8 congruent to the exact result modulo 2^8, and leaves a result already in range alone |
| Ints.WrapU32 | src/main.rs:78 | `Wrapping<u32>` arithmetic gives the one u32 congruent to the exact result modulo 2^32, and leaves a result already in range alone |
| Ints.WrapI64 | src/main.rs:136-138 | `Wrapping<i64>` arithmetic gives the one i64 congruent to the exact result modulo 2^64, and leaves a result already in range alone |
| Ints.TryIntoU32 | src/main.rs:77-82 | `try_into::<u32>()` succeeds exactly for values in 0 .. 2^32-1, and then keeps the value |
| Ints.SaturateU32 | src/main.rs:147-153 | `try_into().unwrap_or(u32::MAX)` keeps an in-range offset and sends a negative or too-large one to `u32::MAX` |
| Ints.Rem | src/main.rs:77-82 | Rust's i64 `%` has a remainder smaller in size than the divisor, with the dividend's sign; for a non-negative dividend it is the mathematical remainder |
| Ints.RemValue | src/main.rs:77-82 | Rust's i64 `%` is the remainder of division truncated toward zero: the dividend is the divisor times the truncated quotient plus the remainder, for every sign of either operand |
| Pixels.Channel | src/main.rs:181-196 | `.data[i]` of a pixel is its i-th channel in the order red, green, blue, alpha |
| Pixels.Image.At | src/main.rs:143-156 | `get_pixel(x, y)` of a valid image is defined exactly for x below the width and y below the height |
| Pixels.Blank | src/main.rs:103-117 | `ImageBuffer::new` is a valid image of the given size, with every channel zero |
| Primitives.ModifiedPixel | src/main.rs:77-82 | for a positive bound the result is always below the bound, so the `unwrap` never fails and every read is in bounds |
| Primitives.ModifiedPixelValue | src/main.rs:77-82 | the result is the u32 sum of coordinate and offset reduced modulo the bound |
| Primitives.ModifiedPixelNoOffset | src/main.rs:77-82 | a zero offset leaves an in-bounds coordinate unchanged |
| Primitives.ModifiedPixelFromZero | src/main.rs:176-177 | `modified_pixel(0, y, y_max)` is y for every row y, so the later passes never move a pixel between rows |
| Primitives.ShiftedRead | src/main.rs:173-177 | a read at column `modified_pixel(c, o)` of row `modified_pixel(0, y)` is the read at column c + o, modulo 2^32 and then modulo the width, of row y |
| Primitives.OffsetI64 | src/main.rs:85-94 | `offset::<i64, i64>` is the draw times the magnitude modulo 2^64; magnitude 0 gives 0 and magnitude 1 gives the draw |
| Primitives.OffsetU32 | src/main.rs:85-94 | `offset::<u32, u32>` is the draw times the magnitude modulo 2^32; magnitude 0 gives 0 and magnitude 1 gives the draw |
| Primitives.Brighten | src/main.rs:96-100 | `brighten_pixels(p, a)` is p minus a loss of 0 or 1, plus a, modulo 256; the loss is 1 exactly when p*a is 255 modulo 256; addition 0 changes nothing |
| Primitives.BrightenFull | src/main.rs:96-100 | with addition 255 every value drops by one modulo 256, except that 1 becomes 255 |
| Primitives.BrightenByTen | src/main.rs:96-100 | with addition 10, 255 becomes 9 and 0 becomes 10 |
| Primitives.BrightenHundredFull | src/main.rs:96-100 | with addition 255, 100 becomes 99 |
| Primitives.BrightenRgba | src/main.rs:197-206 | each of the four channels written by the later passes is brightened on its own; addition 0 leaves the pixel unchanged |
| Dissolve.RatioAccepted | src/main.rs:130 | `gen_ratio(block_height, x_max)` is reached only when the image has a pixel, and then accepts its arguments exactly when `block_height` is at most the width |
| Dissolve.Visit | src/main.rs:130-140 | one pixel takes 4 draws when the coin comes up and 3 otherwise; a hit redraws the line offset, sets the stride and restarts the block at y; a miss keeps the block; the two jitters are the last two draws |
| Dissolve.StrideOffset | src/main.rs:135 | `stride_offset` is the truncated stride times the rows since the block started, both in wrapping u32, then widened to i64 |
| Dissolve.OffsetX | src/main.rs:136-139 | `offset_x` is the x jitter times the magnitude, plus the line offset, plus the stride offset, each sum wrapping in i64 |
| Dissolve.OffsetY | src/main.rs:140 | `offset_y` is the y jitter times the magnitude, wrapping in i64 |
| Dissolve.Displaced | src/main.rs:141-156 | pixel (x, y) receives the source pixel at `modified_pixel` of x and y with the two offsets saturated to u32 |
| Dissolve.DisplacedReads | src/main.rs:141-156 | a pixel receives the source pixel at its coordinates moved by the saturated offsets, modulo 2^32 and then modulo the image's size |
| Dissolve.StillPixel | src/main.rs:135-156 | with no magnitude, no line offset and no stride a pixel receives itself |
| Dissolve.DissolvePixel | src/main.rs:130-156 | the loop body takes the draws `Visit` describes and writes the source pixel that its jitter selects |
| Dissolve.DissolveColumn | src/main.rs:126-157 | one column of the raster scan writes what the column schedule gives it, and leaves the carried block state and the generator where the schedule does |
| Dissolve.ColumnRun | src/main.rs:126-157 | the first y rows of one column of the scan, entered with a block state and the generator at `pos`: one jitter and one pixel per row, the state carried from row to row, and between 3 and 4 draws per row |
| Dissolve.ScanRun | src/main.rs:126-157 | the first x columns of the scan from the zero state with the generator at 0: one column per x, each of the image's height, with the state carried from one column into the next |
| Dissolve.Schedule | src/main.rs:121-159 | the whole x-major scan of the source, its jitters, its pixels and where it leaves the generator |
| Dissolve.ScanDraws | src/main.rs:126-140 | the whole scan takes between 3 and 4 draws per pixel |
| Dissolve.ScheduledPixels | src/main.rs:126-157 | every pixel (x, y) of the scheduled image is the source pixel its own jitter selects |
| Dissolve.DissolveBlock | src/main.rs:121-159 | the pass writes a full image of the source's shape equal to the schedule, and takes exactly the schedule's draws |
| Dissolve.StillCopies | src/main.rs:121-159 | with magnitude 0, block offset 0 and stride 0 the pass copies the source exactly |
| Brightening.DrawLags | src/main.rs:165-171 | a zero base lag stays zero whatever the draw, and so does the offset when `std_offset` is zero |
| Brightening.DrawLagsValue | src/main.rs:165-171 | each lag is its base times one more than its draw, and the offset is its draw times `std_offset`, all modulo 2^32 |
| Brightening.LagCongruence | src/main.rs:168-170 | `lr += offset(lr)` in wrapping u32 is lr times one more than the draw, modulo 2^32 |
| Brightening.Gathered | src/main.rs:172-196 | before brightening, pixel (x, y) takes red and alpha from column `modified_pixel(x - lr, offset_x)`, green from the blue of column `modified_pixel(x + lb, offset_x)` and blue from the green of column `modified_pixel(x, lg)`, all in row `modified_pixel(0, y)` |
| Brightening.GatheredReads | src/main.rs:172-196 | red and alpha come from column x - lr + offset_x, green from the blue of column x + lb + offset_x, and blue from the green of column x + lg, each modulo 2^32 and then modulo the width, all in row y |
| Brightening.Brightened | src/main.rs:172-206 | the pixel the pass writes at (x, y) with lags g: the gathered channels, each brightened |
| Brightening.BrightenedStill | src/main.rs:172-206 | with no lag and no offset a pixel is its own source pixel with green and blue exchanged, then brightened |
| Brightening.BrightenedRowLocal | src/main.rs:172-196 | a pixel depends only on its own row of the source |
| Brightening.Output | src/main.rs:160-209 | the image the pass writes with the generator at `pos`: of the source's shape, with pixel (x, y) the brightened pixel under the four draws its place in the x-major scan gives it |
| Brightening.OutputAt | src/main.rs:160-209 | pixel (x, y) of the output uses the four draws that follow the 4 * (x * height + y) draws of the pixels before it |
| Brightening.StillBrightening | src/main.rs:160-209 | with all base lags and `std_offset` zero, every pixel is its source pixel with green and blue exchanged, then brightened |
| Brightening.TakeLags | src/main.rs:165-171 | the four statements that draw the lags and the offset take, in that order, exactly the values `DrawLags` gives |
| Brightening.GatherPixel | src/main.rs:172-196 | the three `get_pixel` reads of one pixel, with `.data[1]` and `.data[2]`, give the channels `Gathered` describes |
| Brightening.BrightenPixel | src/main.rs:165-206 | one visit of the loop body draws the four values and writes the pixel the pass's output holds at (x, y) |
| Brightening.BrightenColumn | src/main.rs:161-208 | the inner loop writes column x of the output and takes four draws per row |
| Brightening.RandomBrightening | src/main.rs:160-209 | the pass writes the output image described above and takes exactly four draws per pixel |
| Aberration.Shear | src/main.rs:211 | the shear is the mean when the deviation is zero, and the mean plus the draw when it is one |
| Aberration.ShearValue | src/main.rs:211 | the shear is the mean plus the draw times the deviation, modulo 2^32 |
| Aberration.Sheared | src/main.rs:216-240 | before brightening, pixel (x, y) takes red, alpha and (into green) blue from column `modified_pixel(x, offset_x)`, and (into blue) the green of column `modified_pixel(0, x)`, all in row `modified_pixel(0, y)` |
| Aberration.Aberrated | src/main.rs:216-249 | the pixel the pass writes at (x, y) under a shear: the sheared channels, each brightened |
| Aberration.ShearedReads | src/main.rs:216-240 | red, blue (into green) and alpha come from column x + shear (modulo 2^32, then modulo the width), and green (into blue) from (x, y) itself |
| Aberration.ShearedRotates | src/main.rs:216-240 | when no column plus the shear overflows u32, each row's red, blue and alpha are turned by the shear, modulo the width |
| Aberration.ShearedStill | src/main.rs:216-240 | with shear 0 a pixel is its own source pixel with green and blue exchanged |
| Aberration.ShearedRowLocal | src/main.rs:216-240 | a pixel depends only on its own row of the source |
| Aberration.ShearedSolidRow | src/main.rs:216-240 | in a one-colour row every shear reads that colour |
| Aberration.Output | src/main.rs:210-253 | the image the pass writes under a shear: of the source's shape, with pixel (x, y) the sheared, swapped and brightened pixel |
| Aberration.OutputAt | src/main.rs:212-252 | every pixel of the output is the sheared, swapped and brightened pixel described above |
| Aberration.StillAberration | src/main.rs:210-253 | with shear 0 every pixel is its source pixel with green and blue exchanged, then brightened; with addition 0 as well the output is the source with green and blue swapped |
| Aberration.SolidAberration | src/main.rs:210-253 | an image of one colour comes out as one colour, swapped and brightened, whatever the shear |
| Aberration.AberrationColumn | src/main.rs:212-252 | the inner loop writes column x of the output |
| Aberration.ChromaticAberrations | src/main.rs:210-253 | the pass takes exactly one draw and writes the output under the shear that draw gives |
| Pipeline.New | src/main.rs:103-117 | a new corrupter's bounds span the whole image, it holds the source, and its buffer has the image's shape and is all zero |
| Pipeline.ShearDraw | src/main.rs:264-267 | where the generator stands when the aberration pass draws its shear: after the dissolve scan's draws and four per pixel of the brightening |
| Pipeline.Final | src/main.rs:264-267 | the image a run that does not panic writes: the aberration of the source under the shear drawn at `ShearDraw`, of the source's shape |
| Pipeline.Corrupt | src/main.rs:259-269 | a run panics exactly when `gen_ratio` would get a block height above the width of a non-empty image; otherwise it writes the aberration pass's output alone, under the one draw that follows the draws of the first two passes |
| Pipeline.DrawCount | src/main.rs:264-267 | the draw count `Corrupt` reports for a run that `gen_ratio` lets through lies between 7 and 8 draws per pixel, plus one |
| Pipeline.EmptyImageDraws | src/main.rs:126-129 | an image with no pixel takes no draw before the shear and is written unchanged |
| Pipeline.UnshearedRun | src/main.rs:264-267 | with zero mean and zero deviation of aberration, whatever the other options, the image `Final` gives (which a run writes when `gen_ratio` accepts its arguments) is the source with green and blue exchanged and brightened |
| Pipeline.ZeroRunSwaps | src/main.rs:264-267 | with every option zero `gen_ratio` accepts its arguments, so a run does not panic, and the image it writes is the source with green and blue swapped |
| Pipeline.ZeroRunTwice | src/main.rs:264-267 | the core applied with every option zero to its own output gives the source back, whatever the draws |
| Pipeline.DefaultsNarrowPanic | src/main.rs:25-27 | with the default `block_height` of 15, a run on an image with a pixel panics exactly when the image has fewer than 15 columns |
| Pipeline.ZeroRunChanges | src/main.rs:264-267 | a one-pixel image whose green and blue differ is changed by a run with every option zero, so that run is not the identity |
| Pipeline.SolidRun | src/main.rs:264-267 | for a one-colour image, the image `Final` gives (which a run writes when `gen_ratio` accepts its arguments) is one colour, swapped and brightened, whatever the other options and the draws |
| Pipeline.SolidRedRun | src/main.rs:264-267 | for a solid red image with addition 10, the image `Final` gives (which a run writes when `gen_ratio` accepts its arguments) is solid (9, 10, 10, 9) |

## Left out

- Command-line parsing, the `lag` option and the doc comment's claim of parallelism: the options are a plain record (`Options.Config`). `lag` is never read, and the code has no concurrency.
- Image decoding, `to_rgba` conversion and `write`: they are calls into the `image` library. The source is taken as an already-decoded RGBA grid, and `Corrupt` returns the image that would be saved.
- The generator's internals and the coin's probability `block_height / x_max`: draws are inputs. Only the order in which they are taken is modelled.
- How much randomness each call consumes: a draw counts one call on the generator at one call site (`gen_ratio`, `sample::<i64>`, `sample::<u32>`), not the words taken from `ThreadRng`. The `rand` crate is not part of this model; how many words a call takes depends on its version (a u32 and an i64 sample differ, and a Bernoulli coin whose ratio is 1 may answer without sampling), so `Pipeline.DrawCount` counts calls, not generator consumption.
- `stride_magnitude` is an `f64`. The passes only use `stride_magnitude as u32`, which the model takes directly as `strideTrunc`.
- Debug-build overflow panics of `lr += …`, `x + lb` and `stride as u32 * …`: the model uses release-build wrap-around for these.
- Whether a saved file decodes back to the grid that was written: a lossy format such as JPEG does not, and decoding is outside the model. `Pipeline.ZeroRunTwice` is about the core applied to its own output, not about reopening a saved file.
- `x_min` and `y_min`: they are always 0, so every scan covers the whole image.
- The buffer's earlier contents: every pass overwrites every pixel, so each pass's output depends only on the source image, the options and the draws.
- Dissolve.StillCopies: proves only the "if" direction of "the pass copies the source exactly when there is no magnitude, block offset or stride". The converse is false: with any options, a generator whose coins never come up and whose draws are all zero also copies the source.

=== FILE: aberration.dfy ===
/** Third pass, `Corrupter::chromatic_abberations`: one draw fixes a
    horizontal shear for the whole image; every pixel takes red, alpha and
    (into its green channel) blue from the sheared column of its row, keeps
    its own green in its blue channel, and brightens all four channels. */
module Aberration {
  import opened Ints
  import opened Pixels
  import opened Primitives
  import opened Options

  /** `mean_abberation + offset(std_abberation)` in `Wrapping<u32>`, from
      the pass's single draw. */
  function Shear(c: Config, s: Sample): (shear: U32)
    ensures c.stdAberration == 0 ==> shear == c.meanAberration
    ensures c.stdAberration == 1 ==> shear == WrapU32(c.meanAberration + s.unsigned)
  {
    WrapU32(c.meanAberration + OffsetU32(s, c.stdAberration))
  }

  /** The shear is the mean plus the draw times the deviation, modulo 2^32. */
  lemma ShearValue(c: Config, s: Sample)
    ensures (c.meanAberration + s.unsigned * c.stdAberration - Shear(c, s)) % U32_MODULUS == 0
  {
    var o := OffsetU32(s, c.stdAberration);
    SumCongruent(s.unsigned * c.stdAberration - o, c.meanAberration + o - Shear(c, s));
  }

  /** The channels pixel (x, y) gathers before brightening: red, alpha and
      blue (into green) from column `modified_pixel(x, offset_x)`, and its
      own green (column `modified_pixel(0, x)`, which is x) into blue. */
  function Sheared(src: Image, shear: U32, x: U32, y: U32): Rgba
    requires src.Valid() && x < src.width && y < src.height
  {
    var row := ModifiedPixel(0, y, src.height);
    var ra := src.At(ModifiedPixel(x, shear, src.width), row);
    var b := src.At(ModifiedPixel(0, x, src.width), row).g;
    var gr := src.At(ModifiedPixel(x, shear, src.width), row).b;
    Rgba(ra.r, gr, b, ra.a)
  }

  /** What the pass writes at (x, y): the gathered channels, each brightened. */
  function Aberrated(src: Image, c: Config, shear: U32, x: U32, y: U32): Rgba
    requires src.Valid() && x < src.width && y < src.height
  {
    BrightenRgba(Sheared(src, shear, x, y), c.brightness)
  }

  /** Where the pixel reads: red, blue and alpha from one column, x moved by
      the shear modulo 2^32 and then modulo the width; green from (x, y). */
  lemma ShearedReads(src: Image, shear: U32, x: U32, y: U32)
    requires src.Valid() && x < src.width && y < src.height
    ensures Sheared(src, shear, x, y)
            == Rgba(src.At(Reduce(x + shear, src.width), y).r,
                    src.At(Reduce(x + shear, src.width), y).b,
                    src.At(x, y).g,
                    src.At(Reduce(x + shear, src.width), y).a)
  {
    ModifiedPixelFromZero(y, src.height);
    ModifiedPixelFromZero(x, src.width);
    ModifiedPixelValue(x, shear, src.width);
  }

  /** A shear that cannot overflow u32 at any column turns each row's red,
      blue and alpha by that many columns, modulo the width. */
  lemma ShearedRotates(src: Image, shear: U32, x: U32, y: U32)
    requires src.Valid() && x < src.width && y < src.height
    requires src.width + shear <= U32_MODULUS
    ensures Sheared(src, shear, x, y).r == src.At((x + shear) % src.width, y).r
    ensures Sheared(src, shear, x, y).g == src.At((x + shear) % src.width, y).b
    ensures Sheared(src, shear, x, y).a == src.At((x + shear) % src.width, y).a
  {
    ShearedReads(src, shear, x, y);
    SmallMod(x + shear, U32_MODULUS);
  }

  /** With no shear the pixel is its own source pixel with green and blue
      exchanged. */
  lemma ShearedStill(src: Image, x: U32, y: U32)
    requires src.Valid() && x < src.width && y < src.height
    ensures Sheared(src, 0, x, y) == Swapped(src.At(x, y))
  {
    ModifiedPixelFromZero(y, src.height);
    ModifiedPixelFromZero(x, src.width);
    ModifiedPixelNoOffset(x, src.width);
  }

  /** The pixel depends on nothing but row y of the source. */
  lemma ShearedRowLocal(a: Image, b: Image, shear: U32, x: U32, y: U32)
    requires a.Valid() && b.Valid() && SameShape(a, b)
    requires x < a.width && y < a.height
    requires forall i | 0 <= i < a.width :: a.At(i, y) == b.At(i, y)
    ensures Sheared(a, shear, x, y) == Sheared(b, shear, x, y)
  {
    ModifiedPixelFromZero(y, a.height);
  }

  /** In a row of one colour every shear reads that colour. */
  lemma ShearedSolidRow(src: Image, shear: U32, p: Rgba, x: U32, y: U32)
    requires src.Valid() && x < src.width && y < src.height
    requires forall i | 0 <= i < src.width :: src.At(i, y) == p
    ensures Sheared(src, shear, x, y) == Swapped(p)
  {
    ModifiedPixelFromZero(y, src.height);
  }

  /** What (x, y) receives under a given shear. */
  function Pick(src: Image, c: Config, shear: U32): (U32, U32) -> Rgba
  {
    (x: U32, y: U32) =>
      if src.Valid() && x < src.width && y < src.height
      then Aberrated(src, c, shear, x, y)
      else Rgba(0, 0, 0, 0)
  }

  /** The image the pass writes under a given shear. */
  function Output(src: Image, c: Config, shear: U32): (out: Image)
    requires src.Valid()
    ensures out.Valid() && SameShape(out, src)
  {
    Image(src.width, src.height, Grid(Pick(src, c, shear), src.width, src.height))
  }

  /** Pixel (x, y) of the output is the formula above. */
  lemma OutputAt(src: Image, c: Config, shear: U32)
    requires src.Valid()
    ensures forall x: U32, y: U32 | x < src.width && y < src.height ::
              Output(src, c, shear).At(x, y) == Aberrated(src, c, shear, x, y)
  {
    GridAt(Pick(src, c, shear), src.width, src.height);
  }

  /** With no shear, every pixel is its source pixel with green and blue
      exchanged, brightened; without brightening as well, the output is the
      source with green and blue exchanged, not the source itself. */
  lemma StillAberration(src: Image, c: Config)
    requires src.Valid()
    ensures forall x, y | 0 <= x < src.width && 0 <= y < src.height ::
              Output(src, c, 0).At(x, y) == BrightenRgba(Swapped(src.At(x, y)), c.brightness)
    ensures c.brightness == 0 ==> Output(src, c, 0) == SwapGreenBlue(src)
  {
    OutputAt(src, c, 0);
    forall x: U32, y: U32 | x < src.width && y < src.height
      ensures Output(src, c, 0).At(x, y) == BrightenRgba(Swapped(src.At(x, y)), c.brightness)
    {
      ShearedStill(src, x, y);
    }
    if c.brightness == 0 {
      Extensional(Output(src, c, 0), SwapGreenBlue(src));
    }
  }

  /** An image of one colour p comes out as the single colour p with green
      and blue exchanged and brightened, whatever the shear. */
  lemma SolidAberration(src: Image, c: Config, shear: U32, p: Rgba)
    requires src.Valid()
    requires forall x, y | 0 <= x < src.width && 0 <= y < src.height :: src.At(x, y) == p
    ensures forall x, y | 0 <= x < src.width && 0 <= y < src.height ::
              Output(src, c, shear).At(x, y) == BrightenRgba(Swapped(p), c.brightness)
  {
    OutputAt(src, c, shear);
    forall x: U32, y: U32 | x < src.width && y < src.height
      ensures Output(src, c, shear).At(x, y) == BrightenRgba(Swapped(p), c.brightness)
    {
      ShearedSolidRow(src, shear, p, x, y);
    }
  }

  /** The inner loop for column x: rows 0, 1, ... in order. */
  method AberrationColumn(src: Image, c: Config, shear: U32, x: U32) returns (column: seq<Rgba>)
    requires src.Valid() && x < src.width
    ensures column == Column(ColumnOf(Pick(src, c, shear), x), src.height)
  {
    column := [];
    var y: U32 := 0;
    while y < src.height
      invariant y <= src.height
      invariant column == Column(ColumnOf(Pick(src, c, shear), x), y)
    {
      var row := ModifiedPixel(0, y, src.height);
      var ra := src.At(ModifiedPixel(x, shear, src.width), row);
      var b := Channel(src.At(ModifiedPixel(0, x, src.width), row), 1);
      var g := Channel(src.At(ModifiedPixel(x, shear, src.width), row), 2);
      var p := Rgba(Brighten(ra.r, c.brightness), Brighten(g, c.brightness),
                    Brighten(b, c.brightness), Brighten(ra.a, c.brightness));
      assert p == Aberrated(src, c, shear, x, y);
      column := column + [p];
      y := y + 1;
    }
  }

  /** `chromatic_abberations`: one draw for the shear, then every pixel of
      the output, reading only the source. */
  method ChromaticAberrations(src: Image, c: Config, d: nat -> Sample, pos: nat) returns (out: Image, pos': nat)
    requires src.Valid()
    ensures out == Output(src, c, Shear(c, d(pos)))
    ensures pos' == pos + 1
  {
    var shear := Shear(c, d(pos));
    pos' := pos + 1;
    var cols: seq<seq<Rgba>> := [];
    var x: U32 := 0;
    while x < src.width
      invariant x <= src.width
      invariant cols == Grid(Pick(src, c, shear), x, src.height)
    {
      var column := AberrationColumn(src, c, shear, x);
      cols := cols + [column];
      x := x + 1;
    }
    out := Image(src.width, src.height, cols);
  }
}

=== FILE: brightening.dfy ===
/** Second pass, `Corrupter::random_brightening`: every pixel redraws its
    three channel lags and a shared horizontal offset, takes red and alpha
    from one source pixel of its row, blue from a second and green from a
    third, and brightens all four channels. No state is carried from one
    pixel to the next; pixel (x, y) takes the four draws that follow the
    ones of the pixels before it in the x-major scan. */
module Brightening {
  import opened Ints
  import opened Pixels
  import opened Primitives
  import opened Options

  /** The four values one pixel draws, in order: the red, green and blue
      lags and the horizontal offset `offset_x`. */
  datatype Lags = Lags(lr: U32, lg: U32, lb: U32, offsetX: U32)

  /** `lr += offset(lr)`, and likewise for green and blue, then `offset_x`,
      from the generator at k, k+1, k+2 and k+3. A zero base lag or a zero
      offset magnitude stays zero whatever the draw. */
  function DrawLags(c: Config, d: nat -> Sample, k: nat): (g: Lags)
    ensures c.lr == 0 ==> g.lr == 0
    ensures c.lg == 0 ==> g.lg == 0
    ensures c.lb == 0 ==> g.lb == 0
    ensures c.stdOffset == 0 ==> g.offsetX == 0
  {
    Lags(WrapU32(c.lr + OffsetU32(d(k), c.lr)),
         WrapU32(c.lg + OffsetU32(d(k + 1), c.lg)),
         WrapU32(c.lb + OffsetU32(d(k + 2), c.lb)),
         OffsetU32(d(k + 3), c.stdOffset))
  }

  /** Each lag is its base value times one more than its draw, and the
      offset is its draw times the magnitude, all modulo 2^32. */
  lemma DrawLagsValue(c: Config, d: nat -> Sample, k: nat)
    ensures (c.lr * (1 + d(k).unsigned) - DrawLags(c, d, k).lr) % U32_MODULUS == 0
    ensures (c.lg * (1 + d(k + 1).unsigned) - DrawLags(c, d, k).lg) % U32_MODULUS == 0
    ensures (c.lb * (1 + d(k + 2).unsigned) - DrawLags(c, d, k).lb) % U32_MODULUS == 0
    ensures (d(k + 3).unsigned * c.stdOffset - DrawLags(c, d, k).offsetX) % U32_MODULUS == 0
  {
    LagCongruence(c.lr, d(k).unsigned);
    LagCongruence(c.lg, d(k + 1).unsigned);
    LagCongruence(c.lb, d(k + 2).unsigned);
  }

  /** `base + offset(base)` in wrapping u32 is `base * (1 + draw)` modulo 2^32. */
  lemma LagCongruence(base: U32, draw: U32)
    ensures (base * (1 + draw) - WrapU32(base + WrapU32(draw * base))) % U32_MODULUS == 0
  {
    var o := WrapU32(draw * base);
    assert base * (1 + draw) == draw * base + base;
    SumCongruent(draw * base - o, base + o - WrapU32(base + o));
  }

  /** The pixel (x, y) gathers with lags g, before brightening: red and
      alpha from column `modified_pixel(x - lr, offset_x)`, the blue of column
      `modified_pixel(x + lb, offset_x)` in its green channel and the green of
      column `modified_pixel(x, lg)` in its blue channel, all in row y. */
  function Gathered(src: Image, g: Lags, x: U32, y: U32): Rgba
    requires src.Valid() && x < src.width && y < src.height
  {
    var row := ModifiedPixel(0, y, src.height);
    var ra := src.At(ModifiedPixel(WrapU32(x - g.lr), g.offsetX, src.width), row);
    var b := src.At(ModifiedPixel(x, g.lg, src.width), row).g;
    var gr := src.At(ModifiedPixel(WrapU32(x + g.lb), g.offsetX, src.width), row).b;
    Rgba(ra.r, gr, b, ra.a)
  }

  /** What the pass writes at (x, y): the gathered channels, each brightened. */
  function Brightened(src: Image, c: Config, g: Lags, x: U32, y: U32): Rgba
    requires src.Valid() && x < src.width && y < src.height
  {
    BrightenRgba(Gathered(src, g, x, y), c.brightness)
  }

  /** Where the pixel reads, in modular arithmetic: every read is in row y,
      at a column the lag and offset move x to, modulo 2^32 and then modulo
      the width. */
  lemma GatheredReads(src: Image, g: Lags, x: U32, y: U32)
    requires src.Valid() && x < src.width && y < src.height
    ensures Gathered(src, g, x, y)
            == Rgba(src.At(Reduce(WrapU32(x - g.lr) + g.offsetX, src.width), y).r,
                    src.At(Reduce(WrapU32(x + g.lb) + g.offsetX, src.width), y).b,
                    src.At(Reduce(x + g.lg, src.width), y).g,
                    src.At(Reduce(WrapU32(x - g.lr) + g.offsetX, src.width), y).a)
  {
    ShiftedRead(src, WrapU32(x - g.lr), g.offsetX, y);
    ShiftedRead(src, WrapU32(x + g.lb), g.offsetX, y);
    ShiftedRead(src, x, g.lg, y);
  }

  /** With no lag and no offset every read is at (x, y) itself: the pixel is
      the source pixel with green and blue exchanged, brightened. */
  lemma BrightenedStill(src: Image, c: Config, g: Lags, x: U32, y: U32)
    requires src.Valid() && x < src.width && y < src.height
    requires g == Lags(0, 0, 0, 0)
    ensures Gathered(src, g, x, y) == Swapped(src.At(x, y))
    ensures Brightened(src, c, g, x, y) == BrightenRgba(Swapped(src.At(x, y)), c.brightness)
  {
    ModifiedPixelFromZero(y, src.height);
    ModifiedPixelNoOffset(x, src.width);
  }

  /** The pixel depends on nothing but row y of the source. */
  lemma BrightenedRowLocal(a: Image, b: Image, c: Config, g: Lags, x: U32, y: U32)
    requires a.Valid() && b.Valid() && SameShape(a, b)
    requires x < a.width && y < a.height
    requires forall i | 0 <= i < a.width :: a.At(i, y) == b.At(i, y)
    ensures Gathered(a, g, x, y) == Gathered(b, g, x, y)
  {
    ModifiedPixelFromZero(y, a.height);
  }

  /** What (x, y) receives, with the generator at `pos` when the pass starts. */
  function Pick(src: Image, c: Config, d: nat -> Sample, pos: nat): (U32, U32) -> Rgba
  {
    (x: U32, y: U32) =>
      if src.Valid() && x < src.width && y < src.height
      then Brightened(src, c, DrawLags(c, d, pos + 4 * (Area(x, src.height) + y)), x, y)
      else Rgba(0, 0, 0, 0)
  }

  lemma PickAt(src: Image, c: Config, d: nat -> Sample, pos: nat, x: U32, y: U32, k: nat)
    requires src.Valid() && x < src.width && y < src.height
    requires k == pos + 4 * (Area(x, src.height) + y)
    ensures Pick(src, c, d, pos)(x, y) == Brightened(src, c, DrawLags(c, d, k), x, y)
    ensures ColumnOf(Pick(src, c, d, pos), x)(y) == Brightened(src, c, DrawLags(c, d, k), x, y)
  {}

  /** The image the pass writes, with the generator at `pos` when it starts. */
  function Output(src: Image, c: Config, d: nat -> Sample, pos: nat): (out: Image)
    requires src.Valid()
    ensures out.Valid() && SameShape(out, src)
  {
    Image(src.width, src.height, Grid(Pick(src, c, d, pos), src.width, src.height))
  }

  /** Pixel (x, y) of the output is the formula above, with the four draws
      that follow the 4 * (x * height + y) taken before it (`Area(x, height)`
      is x * height, by `AreaIsProduct`). */
  lemma OutputAt(src: Image, c: Config, d: nat -> Sample, pos: nat)
    requires src.Valid()
    ensures forall x: U32, y: U32 | x < src.width && y < src.height ::
              Output(src, c, d, pos).At(x, y)
              == Brightened(src, c, DrawLags(c, d, pos + 4 * (Area(x, src.height) + y)), x, y)
  {
    var pick := Pick(src, c, d, pos);
    GridAt(pick, src.width, src.height);
    forall x: U32, y: U32 | x < src.width && y < src.height
      ensures Output(src, c, d, pos).At(x, y)
              == Brightened(src, c, DrawLags(c, d, pos + 4 * (Area(x, src.height) + y)), x, y)
    {
      PickAt(src, c, d, pos, x, y, pos + 4 * (Area(x, src.height) + y));
      assert Output(src, c, d, pos).At(x, y) == pick(x, y);
    }
  }

  /** With every base lag and the offset magnitude zero, the pass writes the
      source with green and blue exchanged, each channel brightened. */
  lemma StillBrightening(src: Image, c: Config, d: nat -> Sample, pos: nat)
    requires src.Valid()
    requires c.lr == 0 && c.lg == 0 && c.lb == 0 && c.stdOffset == 0
    ensures forall x, y | 0 <= x < src.width && 0 <= y < src.height ::
              Output(src, c, d, pos).At(x, y) == BrightenRgba(Swapped(src.At(x, y)), c.brightness)
  {
    OutputAt(src, c, d, pos);
    forall x: U32, y: U32 | x < src.width && y < src.height
      ensures Output(src, c, d, pos).At(x, y) == BrightenRgba(Swapped(src.At(x, y)), c.brightness)
    {
      BrightenedStill(src, c, DrawLags(c, d, pos + 4 * (Area(x, src.height) + y)), x, y);
    }
  }

  /** The draws one pixel takes, with the generator at k: `lr += offset(lr)`,
      then green and blue likewise, then `offset_x`. */
  method TakeLags(c: Config, d: nat -> Sample, k: nat) returns (g: Lags)
    ensures g == DrawLags(c, d, k)
  {
    var lr, lg, lb := c.lr, c.lg, c.lb;
    lr := WrapU32(lr + OffsetU32(d(k), c.lr));
    lg := WrapU32(lg + OffsetU32(d(k + 1), c.lg));
    lb := WrapU32(lb + OffsetU32(d(k + 2), c.lb));
    var offsetX := OffsetU32(d(k + 3), c.stdOffset);
    g := Lags(lr, lg, lb, offsetX);
  }

  /** The reads for pixel (x, y) with lags g: red and alpha, `.data[1]`
      and `.data[2]`, all in row y. */
  method GatherPixel(src: Image, g: Lags, x: U32, y: U32) returns (p: Rgba)
    requires src.Valid() && x < src.width && y < src.height
    ensures p == Gathered(src, g, x, y)
  {
    var row := ModifiedPixel(0, y, src.height);
    var ra := src.At(ModifiedPixel(WrapU32(x - g.lr), g.offsetX, src.width), row);
    var b := Channel(src.At(ModifiedPixel(x, g.lg, src.width), row), 1);
    var gr := Channel(src.At(ModifiedPixel(WrapU32(x + g.lb), g.offsetX, src.width), row), 2);
    p := Rgba(ra.r, gr, b, ra.a);
  }

  /** The body of the scan for one pixel (x, y), with the generator at k:
      the four draws, the three reads, and the four channels brightened in
      the order `[r, g, b, a]`. */
  method BrightenPixel(src: Image, c: Config, d: nat -> Sample, k: nat, x: U32, y: U32) returns (p: Rgba)
    requires src.Valid() && x < src.width && y < src.height
    ensures p == Brightened(src, c, DrawLags(c, d, k), x, y)
  {
    var lags := TakeLags(c, d, k);
    var q := GatherPixel(src, lags, x, y);
    p := Rgba(Brighten(q.r, c.brightness), Brighten(q.g, c.brightness),
              Brighten(q.b, c.brightness), Brighten(q.a, c.brightness));
  }

  /** The inner loop for column x: rows 0, 1, ... in order, four draws each. */
  method BrightenColumn(src: Image, c: Config, d: nat -> Sample, pos: nat, x: U32, k: nat)
    returns (column: seq<Rgba>, k': nat)
    requires src.Valid() && x < src.width
    requires k == pos + 4 * Area(x, src.height)
    ensures column == Column(ColumnOf(Pick(src, c, d, pos), x), src.height)
    ensures k' == k + 4 * src.height
  {
    column, k' := [], k;
    var y: U32 := 0;
    while y < src.height
      invariant y <= src.height
      invariant column == Column(ColumnOf(Pick(src, c, d, pos), x), y)
      invariant k' == k + 4 * y
    {
      var p := BrightenPixel(src, c, d, k', x, y);
      PickAt(src, c, d, pos, x, y, k');
      column := column + [p];
      k' := k' + 4;
      y := y + 1;
    }
  }

  /** `random_brightening`: writes every pixel of the output, reading only
      the source, and takes exactly four draws per pixel. */
  method RandomBrightening(src: Image, c: Config, d: nat -> Sample, pos: nat) returns (out: Image, pos': nat)
    requires src.Valid()
    ensures out == Output(src, c, d, pos)
    ensures pos' == pos + 4 * Area(src.width, src.height)
  {
    var cols: seq<seq<Rgba>> := [];
    pos' := pos;
    var x: U32 := 0;
    while x < src.width
      invariant x <= src.width
      invariant cols == Grid(Pick(src, c, d, pos), x, src.height)
      invariant pos' == pos + 4 * Area(x, src.height)
    {
      var column;
      column, pos' := BrightenColumn(src, c, d, pos, x, pos');
      cols := cols + [column];
      x := x + 1;
    }
    out := Image(src.width, src.height, cols);
  }
}

=== FILE: dissolve.dfy ===
/** First pass, `Corrupter::dissolve_block`: a raster scan (x outer, y inner)
    that copies to every (x, y) the source pixel at a displaced coordinate.
    The displacement has a per-pixel jitter plus a block offset and a stride
    drift that are redrawn whenever the `gen_ratio` coin comes up, and carried
    in raster order otherwise, from one column into the next as well. */
module Dissolve {
  import opened Ints
  import opened Pixels
  import opened Primitives
  import opened Options

  /** The state the scan carries between pixels: `line_offset`,
      `stride as u32` and `yset`. */
  datatype Block = Block(lineOffset: I64, stride: U32, yset: U32)

  /** The state before the first pixel: every field starts at zero. */
  const Start: Block := Block(0, 0, 0)

  /** What one pixel's offsets are computed from: the block state in force at
      that pixel and the two jitter draws it takes. */
  datatype Jitter = Jitter(block: Block, jx: Sample, jy: Sample)

  /** What one pixel's visit produces, and how many draws it took. */
  datatype Visited = Visited(block: Block, jitter: Jitter, used: nat)

  /** The first rows of one column: their jitters and the pixels the scan
      puts there, the state after them, and the position of the generator. */
  datatype Run = Run(jitters: seq<Jitter>, pixels: seq<Rgba>, block: Block, pos: nat)

  /** The first columns of the scan: `jitters[x][y]` and `cols[x][y]` for
      each, the state after them, and the position of the generator. */
  datatype Scan = Scan(jitters: seq<seq<Jitter>>, cols: seq<seq<Rgba>>, block: Block, pos: nat)

  /** `gen_ratio(block_height, x_max)` panics when the numerator exceeds the
      denominator; it is only called when there is a pixel to visit. */
  predicate RatioAccepted(c: Config, width: U32, height: U32)
  {
    width == 0 || height == 0 || c.blockHeight <= width
  }

  /** One pixel at row y, with the generator at `pos`: the coin; when it
      comes up a redrawn line offset and a block restarting at y; then the x
      jitter and the y jitter. */
  function Visit(c: Config, b: Block, y: U32, d: nat -> Sample, pos: nat): (v: Visited)
    ensures v.used == if d(pos).coin then 4 else 3
    ensures !d(pos).coin ==> v.block == b
    ensures d(pos).coin ==> v.block == Block(OffsetI64(d(pos + 1), c.blockOffset), c.strideTrunc, y)
    ensures v.jitter == Jitter(v.block, d(pos + v.used - 2), d(pos + v.used - 1))
  {
    var block := if d(pos).coin then Block(OffsetI64(d(pos + 1), c.blockOffset), c.strideTrunc, y) else b;
    var k := if d(pos).coin then pos + 2 else pos + 1;
    Visited(block, Jitter(block, d(k), d(k + 1)), k + 2 - pos)
  }

  /** `stride_offset`: the stride times the rows since the block started,
      in u32 and then widened. */
  function StrideOffset(b: Block, y: U32): I64
  {
    WrapU32(Times(b.stride, WrapU32(y - b.yset)))
  }

  /** `offset_x`: the x jitter scaled by the magnitude, plus the line offset,
      plus the stride offset, wrapping in i64. */
  function OffsetX(c: Config, j: Jitter, y: U32): I64
  {
    WrapI64(WrapI64(OffsetI64(j.jx, c.magnitude) + j.block.lineOffset) + StrideOffset(j.block, y))
  }

  /** `offset_y`: the y jitter scaled by the magnitude. */
  function OffsetY(c: Config, j: Jitter): I64
  {
    OffsetI64(j.jy, c.magnitude)
  }

  /** The source pixel that (x, y) receives: both offsets saturated to u32
      and applied with `modified_pixel`. Both coordinates are in bounds
      whatever the offsets, so `At`'s precondition is met. */
  function Displaced(src: Image, c: Config, j: Jitter, x: U32, y: U32): Rgba
    requires src.Valid() && x < src.width && y < src.height
  {
    src.At(ModifiedPixel(x, SaturateU32(OffsetX(c, j, y)), src.width),
           ModifiedPixel(y, SaturateU32(OffsetY(c, j)), src.height))
  }

  /** Where the pixel reads, in modular arithmetic: each saturated offset is
      added to its coordinate modulo 2^32 and the sum taken modulo the
      image's size in that direction. */
  lemma DisplacedReads(src: Image, c: Config, j: Jitter, x: U32, y: U32)
    requires src.Valid() && x < src.width && y < src.height
    ensures Displaced(src, c, j, x, y)
            == src.At(Reduce(x + SaturateU32(OffsetX(c, j, y)), src.width),
                      Reduce(y + SaturateU32(OffsetY(c, j)), src.height))
  {
    ModifiedPixelValue(x, SaturateU32(OffsetX(c, j, y)), src.width);
    ModifiedPixelValue(y, SaturateU32(OffsetY(c, j)), src.height);
  }

  /** What column x receives at row y from jitter j, as a function of
      (j, y). The scan only asks for rows inside the image. */
  function Selector(src: Image, c: Config, x: U32): (Jitter, U32) -> Rgba
  {
    (j: Jitter, y: U32) =>
      if src.Valid() && x < src.width && y < src.height then Displaced(src, c, j, x, y)
      else Rgba(0, 0, 0, 0)
  }

  /** Rows 0 .. y-1 of one column, entered in state b with the generator at
      `pos`, each row receiving what `pick` selects with its jitter. Each row
      takes three or four draws. */
  function ColumnRun(pick: (Jitter, U32) -> Rgba, c: Config, b: Block, pos: nat, y: U32, d: nat -> Sample): (r: Run)
    ensures |r.jitters| == y && |r.pixels| == y
    ensures pos + 3 * y <= r.pos <= pos + 4 * y
  {
    if y == 0 then Run([], [], b, pos)
    else
      var r := ColumnRun(pick, c, b, pos, y - 1, d);
      var v := Visit(c, r.block, y - 1, d, r.pos);
      Run(r.jitters + [v.jitter], r.pixels + [pick(v.jitter, y - 1)], v.block, r.pos + v.used)
  }

  /** Columns 0 .. x-1 of the scan, from the start state with the generator at 0. */
  function ScanRun(src: Image, c: Config, x: U32, d: nat -> Sample): (s: Scan)
    requires x <= src.width
    ensures |s.jitters| == x && |s.cols| == x
    ensures forall i | 0 <= i < x :: |s.jitters[i]| == src.height && |s.cols[i]| == src.height
  {
    if x == 0 then Scan([], [], Start, 0)
    else
      var s := ScanRun(src, c, x - 1, d);
      var r := ColumnRun(Selector(src, c, x - 1), c, s.block, s.pos, src.height, d);
      Scan(s.jitters + [r.jitters], s.cols + [r.pixels], r.block, r.pos)
  }

  /** The whole scan, in the order the pass draws. */
  function Schedule(src: Image, c: Config, d: nat -> Sample): (s: Scan)
  {
    ScanRun(src, c, src.width, d)
  }

  /** Each pixel takes three draws, or four when its coin comes up
      (`Visit`), so the scan takes between three and four draws per pixel. */
  lemma {:induction false} ScanDraws(src: Image, c: Config, x: U32, d: nat -> Sample)
    requires x <= src.width
    ensures 3 * Area(x, src.height) <= ScanRun(src, c, x, d).pos <= 4 * Area(x, src.height)
  {
    if x > 0 {
      ScanDraws(src, c, x - 1, d);
      var s := ScanRun(src, c, x - 1, d);
      var r := ColumnRun(Selector(src, c, x - 1), c, s.block, s.pos, src.height, d);
      assert ScanRun(src, c, x, d).pos == r.pos;
    }
  }

  /** Every row of a column run holds what `pick` selects with that row's jitter. */
  lemma {:induction false} ColumnPixels(pick: (Jitter, U32) -> Rgba, c: Config, b: Block, pos: nat, y: U32, d: nat -> Sample)
    ensures forall j: U32 | j < y ::
              ColumnRun(pick, c, b, pos, y, d).pixels[j] == pick(ColumnRun(pick, c, b, pos, y, d).jitters[j], j)
  {
    if y > 0 {
      ColumnPixels(pick, c, b, pos, y - 1, d);
    }
  }

  /** Every pixel the scan puts is what its column's selector picks with its jitter. */
  lemma {:induction false} ScanPixels(src: Image, c: Config, x: U32, d: nat -> Sample)
    requires x <= src.width
    ensures forall i: U32, j: U32 | i < x && j < src.height ::
              ScanRun(src, c, x, d).cols[i][j] == Selector(src, c, i)(ScanRun(src, c, x, d).jitters[i][j], j)
  {
    if x > 0 {
      ScanPixels(src, c, x - 1, d);
      var s := ScanRun(src, c, x - 1, d);
      var pick := Selector(src, c, x - 1);
      ColumnPixels(pick, c, s.block, s.pos, src.height, d);
      var r := ColumnRun(pick, c, s.block, s.pos, src.height, d);
      var s' := ScanRun(src, c, x, d);
      assert s'.jitters == s.jitters + [r.jitters];
      assert s'.cols == s.cols + [r.pixels];
      forall i: U32, j: U32 | i < x && j < src.height
        ensures s'.cols[i][j] == Selector(src, c, i)(s'.jitters[i][j], j)
      {
        if i < x - 1 {
          assert s'.cols[i] == s.cols[i] && s'.jitters[i] == s.jitters[i];
        } else {
          assert s'.cols[i] == r.pixels && s'.jitters[i] == r.jitters;
        }
      }
    }
  }

  /** Every pixel (x, y) of the scheduled image is the source pixel that
      its jitter selects. */
  lemma ScheduledPixels(src: Image, c: Config, d: nat -> Sample)
    requires src.Valid()
    ensures forall x, y | 0 <= x < src.width && 0 <= y < src.height ::
              Schedule(src, c, d).cols[x][y] == Displaced(src, c, Schedule(src, c, d).jitters[x][y], x, y)
  {
    var s := Schedule(src, c, d);
    ScanPixels(src, c, src.width, d);
    forall x: U32, y: U32 | x < src.width && y < src.height
      ensures s.cols[x][y] == Displaced(src, c, s.jitters[x][y], x, y)
    {
      assert s.cols[x][y] == Selector(src, c, x)(s.jitters[x][y], y);
    }
  }

  /** No jitter, no block offset and no stride. */
  predicate Still(c: Config)
  {
    c.magnitude == 0 && c.blockOffset == 0 && c.strideTrunc == 0
  }

  predicate Quiet(b: Block)
  {
    b.lineOffset == 0 && b.stride == 0
  }

  /** A still configuration displaces nothing: every pixel receives itself. */
  lemma StillPixel(src: Image, c: Config, j: Jitter, x: U32, y: U32)
    requires src.Valid() && x < src.width && y < src.height
    requires Still(c) && Quiet(j.block)
    ensures Displaced(src, c, j, x, y) == src.At(x, y)
  {
    TimesIsProduct(0, WrapU32(y - j.block.yset));
    ModifiedPixelNoOffset(x, src.width);
    ModifiedPixelNoOffset(y, src.height);
  }

  /** The body of the scan for one pixel (x, y), with the generator at `pos`:
      the coin, the redraw on a hit, the two jitters, and the source pixel
      they select. */
  method DissolvePixel(src: Image, c: Config, b: Block, x: U32, y: U32, d: nat -> Sample, pos: nat)
    returns (b': Block, p: Rgba, pos': nat)
    requires src.Valid() && x < src.width && y < src.height
    ensures b' == Visit(c, b, y, d, pos).block && pos' == pos + Visit(c, b, y, d, pos).used
    ensures p == Displaced(src, c, Visit(c, b, y, d, pos).jitter, x, y)
  {
    var lineOffset, stride, yset := b.lineOffset, b.stride, b.yset;
    pos' := pos;
    var hit := d(pos').coin;
    pos' := pos' + 1;
    if hit {
      lineOffset := OffsetI64(d(pos'), c.blockOffset);
      pos' := pos' + 1;
      stride := c.strideTrunc;
      yset := y;
    }
    var strideOffset: I64 := WrapU32(Times(stride, WrapU32(y - yset)));
    var offsetX := WrapI64(WrapI64(OffsetI64(d(pos'), c.magnitude) + lineOffset) + strideOffset);
    pos' := pos' + 1;
    var offsetY := OffsetI64(d(pos'), c.magnitude);
    pos' := pos' + 1;
    b' := Block(lineOffset, stride, yset);
    p := src.At(ModifiedPixel(x, SaturateU32(offsetX), src.width),
                ModifiedPixel(y, SaturateU32(offsetY), src.height));
    ghost var v := Visit(c, b, y, d, pos);
    assert v.jitter == Jitter(b', d(pos' - 2), d(pos' - 1));
    assert offsetX == OffsetX(c, v.jitter, y) && offsetY == OffsetY(c, v.jitter);
  }

  /** The inner loop for column x, entered in state b with the generator at
      `pos`: it puts at (x, 0), (x, 1), ... the pixels `ColumnRun`
      schedules, and leaves the state and the generator where it does. */
  method DissolveColumn(src: Image, c: Config, b: Block, x: U32, d: nat -> Sample, pos: nat)
    returns (column: seq<Rgba>, b': Block, pos': nat)
    requires src.Valid() && x < src.width
    ensures column == ColumnRun(Selector(src, c, x), c, b, pos, src.height, d).pixels
    ensures b' == ColumnRun(Selector(src, c, x), c, b, pos, src.height, d).block
    ensures pos' == ColumnRun(Selector(src, c, x), c, b, pos, src.height, d).pos
  {
    column, b', pos' := [], b, pos;
    var y: U32 := 0;
    ghost var run := ColumnRun(Selector(src, c, x), c, b, pos, 0, d);
    while y < src.height
      invariant y <= src.height
      invariant run == ColumnRun(Selector(src, c, x), c, b, pos, y, d)
      invariant column == run.pixels && b' == run.block && pos' == run.pos
    {
      var p;
      b', p, pos' := DissolvePixel(src, c, b', x, y, d, pos');
      column := column + [p];
      y := y + 1;
      run := ColumnRun(Selector(src, c, x), c, b, pos, y, d);
    }
  }

  /** `dissolve_block`: the output is the image the scan schedules, and the
      pass takes from the generator exactly the draws the schedule takes,
      between three and four per pixel (`ScanDraws`). Every pixel (x, y)
      receives the source pixel its jitter selects. Every pixel of the
      buffer is overwritten, so its previous contents do not matter. */
  method DissolveBlock(src: Image, c: Config, d: nat -> Sample) returns (out: Image, used: nat)
    requires src.Valid()
    requires RatioAccepted(c, src.width, src.height)
    ensures out.Valid() && SameShape(out, src)
    ensures out.cols == Schedule(src, c, d).cols && used == Schedule(src, c, d).pos
  {
    var width, height := src.width, src.height;
    var cols: seq<seq<Rgba>> := [];
    var block := Start;
    used := 0;
    var x: U32 := 0;
    ghost var scan := ScanRun(src, c, 0, d);
    while x < width
      invariant x <= width
      invariant scan == ScanRun(src, c, x, d)
      invariant cols == scan.cols && block == scan.block && used == scan.pos
    {
      var column;
      column, block, used := DissolveColumn(src, c, block, x, d, used);
      cols := cols + [column];
      x := x + 1;
      scan := ScanRun(src, c, x, d);
    }
    out := Image(width, height, cols);
  }

  /** Under a still configuration a column keeps the block quiet, and every
      jitter it schedules is in a quiet block. */
  lemma {:induction false} StillColumn(pick: (Jitter, U32) -> Rgba, c: Config, b: Block, pos: nat, y: U32, d: nat -> Sample)
    requires Still(c) && Quiet(b)
    ensures Quiet(ColumnRun(pick, c, b, pos, y, d).block)
    ensures forall j | 0 <= j < y :: Quiet(ColumnRun(pick, c, b, pos, y, d).jitters[j].block)
  {
    if y > 0 {
      StillColumn(pick, c, b, pos, y - 1, d);
    }
  }

  /** Under a still configuration every jitter of the scan is in a quiet block. */
  lemma {:induction false} StillScan(src: Image, c: Config, x: U32, d: nat -> Sample)
    requires x <= src.width
    requires Still(c)
    ensures Quiet(ScanRun(src, c, x, d).block)
    ensures forall i, j | 0 <= i < x && 0 <= j < src.height :: Quiet(ScanRun(src, c, x, d).jitters[i][j].block)
  {
    if x > 0 {
      StillScan(src, c, x - 1, d);
      var s := ScanRun(src, c, x - 1, d);
      var pick := Selector(src, c, x - 1);
      StillColumn(pick, c, s.block, s.pos, src.height, d);
      var r := ColumnRun(pick, c, s.block, s.pos, src.height, d);
      var s' := ScanRun(src, c, x, d);
      assert s'.jitters == s.jitters + [r.jitters] && s'.block == r.block;
      forall i, j | 0 <= i < x && 0 <= j < src.height
        ensures Quiet(s'.jitters[i][j].block)
      {
        if i < x - 1 {
          assert s'.jitters[i] == s.jitters[i];
        } else {
          assert s'.jitters[i] == r.jitters;
        }
      }
    }
  }

  /** Under a still configuration the pass copies the source. */
  lemma StillCopies(src: Image, c: Config, d: nat -> Sample)
    requires src.Valid()
    requires Still(c)
    ensures Image(src.width, src.height, Schedule(src, c, d).cols) == src
  {
    var s := Schedule(src, c, d);
    var out := Image(src.width, src.height, s.cols);
    StillScan(src, c, src.width, d);
    ScheduledPixels(src, c, d);
    forall x, y | 0 <= x < src.width && 0 <= y < src.height
      ensures out.At(x, y) == src.At(x, y)
    {
      StillPixel(src, c, s.jitters[x][y], x, y);
    }
    Extensional(out, src);
  }
}

=== FILE: ints.dfy ===
/** Fixed-width machine integers of the corrupter, as unbounded integers with
    every wrap-around, cast and remainder written out. */
module Ints {

  const U8_MODULUS: int := 0x100
  const U32_MODULUS: int := 0x1_0000_0000
  const I64_MODULUS: int := 0x1_0000_0000_0000_0000
  const I64_HALF: int := 0x8000_0000_0000_0000

  type U8 = x: int | 0 <= x < 0x100
  type U32 = x: int | 0 <= x < 0x1_0000_0000
  type I64 = x: int | -0x8000_0000_0000_0000 <= x < 0x8000_0000_0000_0000

  /** `std::u32::MAX` */
  const U32_MAX: U32 := 0xFFFF_FFFF

  datatype Option<T> = None | Some(value: T)

  /** `Wrapping<u8>` arithmetic: the one u8 congruent to `x` modulo 2^8. */
  function WrapU8(x: int): (r: U8)
    ensures (x - r) % U8_MODULUS == 0
    ensures 0 <= x < U8_MODULUS ==> r == x
  {
    x % U8_MODULUS
  }

  /** `Wrapping<u32>` arithmetic: the one u32 congruent to `x` modulo 2^32. */
  function WrapU32(x: int): (r: U32)
    ensures (x - r) % U32_MODULUS == 0
    ensures 0 <= x < U32_MODULUS ==> r == x
  {
    x % U32_MODULUS
  }

  /** `Wrapping<i64>` arithmetic: the one i64 congruent to `x` modulo 2^64. */
  function WrapI64(x: int): (r: I64)
    ensures (x - r) % I64_MODULUS == 0
    ensures -I64_HALF <= x < I64_HALF ==> r == x
  {
    (x + I64_HALF) % I64_MODULUS - I64_HALF
  }

  /** `TryInto::<u32>::try_into` on an integer: fails exactly outside u32's range. */
  function TryIntoU32(v: int): (r: Option<U32>)
    ensures r.Some? <==> 0 <= v < U32_MODULUS
    ensures r.Some? ==> r.value == v
  {
    if 0 <= v < U32_MODULUS then Some(v) else None
  }

  /** `v.try_into().unwrap_or(std::u32::MAX)`: saturating conversion of a
      displacement, where a negative value also becomes `u32::MAX`. */
  function SaturateU32(v: int): (r: U32)
    ensures 0 <= v <= U32_MAX ==> r == v
    ensures v < 0 || U32_MAX < v ==> r == U32_MAX
  {
    match TryIntoU32(v)
    case Some(u) => u
    case None => U32_MAX
  }

  /** `a * b` on naturals, as `b` repeated additions of `a`. Products of two
      variables are written this way so that every proof about them goes
      through `TimesIsProduct` instead of nonlinear arithmetic. */
  function Times(a: nat, b: nat): nat
  {
    if b == 0 then 0 else a + Times(a, b - 1)
  }

  lemma {:induction false} TimesIsProduct(a: nat, b: nat)
    ensures Times(a, b) == a * b
  {
    if b > 0 {
      TimesIsProduct(a, b - 1);
    }
  }

  lemma SmallMod(a: int, m: int)
    requires 0 <= a < m
    ensures a % m == a
  {
    assert a == m * 0 + a;
  }

  /** Two multiples of 2^32 add up to a multiple of 2^32. */
  lemma SumCongruent(a: int, b: int)
    requires a % U32_MODULUS == 0 && b % U32_MODULUS == 0
    ensures (a + b) % U32_MODULUS == 0
  {
    assert a + b == (a / U32_MODULUS + b / U32_MODULUS) * U32_MODULUS;
  }

  function Abs(a: int): nat
  {
    if a < 0 then -a else a
  }

  /** Rust's `%` on signed integers: the remainder of division truncated
      toward zero, which takes the sign of the dividend. */
  function Rem(a: int, b: int): (r: int)
    requires b != 0
    ensures Abs(r) < Abs(b)
    ensures 0 <= a ==> 0 <= r
    ensures a <= 0 ==> r <= 0
    ensures 0 <= a ==> r == a % b
  {
    if 0 <= a then a % b else -((-a) % b)
  }

  /** Rust's `/` on signed integers: division truncated toward zero. */
  function Quot(a: int, b: int): int
    requires b != 0
  {
    if 0 <= a then a / b else -((-a) / b)
  }

  /** Rust's `%` is the remainder of Rust's `/`: with its sign and size
      above, this fixes its value for every dividend and divisor. */
  lemma RemValue(a: int, b: int)
    requires b != 0
    ensures a == b * Quot(a, b) + Rem(a, b)
  {}
}

=== FILE: options.dfy ===
/** The numeric command-line options the passes read. */
module Options {
  import opened Ints

  /** Every option a pass reads. `strideTrunc` is `stride_magnitude as u32`,
      the only use the passes make of the floating-point stride. */
  datatype Config = Config(
    magnitude: I64,
    blockHeight: U32,
    blockOffset: U32,
    strideTrunc: U32,
    lr: U32,
    lg: U32,
    lb: U32,
    stdOffset: U32,
    brightness: U8,
    meanAberration: U32,
    stdAberration: U32)

  /** The command line's defaults; the default stride 0.1 truncates to 0. */
  const Defaults: Config := Config(7, 15, 30, 0, 12, 17, 18, 10, 3, 10, 1)
}

=== FILE: pipeline.dfy ===
/** The corrupter itself: `Corrupter::new` and the chain `main` runs,
    `dissolve_block`, then `random_brightening`, then
    `chromatic_abberations`, on one shared generator. Every pass reads the
    decoded source `img` and overwrites every pixel of `buffer`, so the
    image written at the end is the last pass's output alone; the first two
    passes still advance the generator, which moves the one draw the last
    pass takes. */
module Pipeline {
  import opened Ints
  import opened Pixels
  import opened Primitives
  import opened Options
  import Dissolve
  import Brightening
  import Aberration

  /** The four dimensions of the input image. */
  datatype Bounds = Bounds(xMin: U32, yMin: U32, xMax: U32, yMax: U32)

  /** The source image, its bounds and the output buffer. */
  datatype Corrupter = Corrupter(bounds: Bounds, img: Image, buffer: Image)
  {
    /** The bounds are the whole image and the buffer has the image's shape. */
    predicate Valid()
    {
      && img.Valid() && buffer.Valid() && SameShape(buffer, img)
      && bounds == Bounds(0, 0, img.width, img.height)
    }
  }

  /** `Corrupter::new` on an image already decoded: bounds from 0 to the
      image's size, and an all-zero buffer of that size. */
  function New(img: Image): (k: Corrupter)
    requires img.Valid()
    ensures k.Valid() && k.img == img
    ensures forall x, y | 0 <= x < img.width && 0 <= y < img.height ::
              k.buffer.At(x, y) == Rgba(0, 0, 0, 0)
  {
    Corrupter(Bounds(0, 0, img.width, img.height), img, Blank(img.width, img.height))
  }

  /** How a run ends: the image `write` receives and the number of draws
      taken, or the panic of `gen_ratio` before anything is written. */
  datatype Outcome = Written(image: Image, draws: nat) | RatioPanic

  /** Where the generator stands when the last pass takes its draw: after
      the draws of the dissolve scan and four per pixel of the brightening. */
  function ShearDraw(src: Image, c: Config, d: nat -> Sample): nat
  {
    Dissolve.Schedule(src, c, d).pos + 4 * Area(src.width, src.height)
  }

  /** The shear of the last pass. */
  function FinalShear(src: Image, c: Config, d: nat -> Sample): U32
  {
    Aberration.Shear(c, d(ShearDraw(src, c, d)))
  }

  /** The image a run writes: the aberration of the source under the shear
      drawn after the first two passes. */
  function Final(src: Image, c: Config, d: nat -> Sample): (out: Image)
    requires src.Valid()
    ensures out.Valid() && SameShape(out, src)
  {
    Aberration.Output(src, c, FinalShear(src, c, d))
  }

  /** The last pass, started with the generator where the first two passes
      left it, writes `Final`. */
  lemma FinalFrom(src: Image, c: Config, d: nat -> Sample, k: nat)
    requires src.Valid()
    requires k == ShearDraw(src, c, d)
    ensures Aberration.Output(src, c, Aberration.Shear(c, d(k))) == Final(src, c, d)
  {}

  /** `main` after decoding: build the corrupter and run the three passes in
      order. A run panics exactly when `gen_ratio` is given a block height
      above the width on a non-empty image; otherwise it writes the last
      pass's output, of the source's shape, after one draw more than the
      first two passes took. */
  method Corrupt(src: Image, c: Config, d: nat -> Sample) returns (o: Outcome)
    requires src.Valid()
    ensures o.RatioPanic? <==> !Dissolve.RatioAccepted(c, src.width, src.height)
    ensures o.Written? ==> o.image == Final(src, c, d) && o.draws == ShearDraw(src, c, d) + 1
  {
    if !Dissolve.RatioAccepted(c, src.width, src.height) {
      return RatioPanic;
    }
    var k := New(src);
    var dissolved, pos := Dissolve.DissolveBlock(k.img, c, d);
    k := k.(buffer := dissolved);
    var brightened, pos' := Brightening.RandomBrightening(k.img, c, d, pos);
    k := k.(buffer := brightened);
    var aberrated, pos'' := Aberration.ChromaticAberrations(k.img, c, d, pos');
    k := k.(buffer := aberrated);
    FinalFrom(src, c, d, pos');
    assert k.Valid();
    return Written(k.buffer, pos'');
  }

  /** The draw count of a run that `gen_ratio` lets through (`Corrupt`
      reports `ShearDraw + 1`): seven or eight draws per pixel (three or four
      in the dissolve scan, four in the brightening) and one more for the
      shear. A run that panics stops inside the first pass. */
  lemma DrawCount(src: Image, c: Config, d: nat -> Sample)
    requires src.Valid()
    ensures 7 * Area(src.width, src.height) + 1 <= ShearDraw(src, c, d) + 1
    ensures ShearDraw(src, c, d) + 1 <= 8 * Area(src.width, src.height) + 1
  {
    Dissolve.ScanDraws(src, c, src.width, d);
  }

  /** An image with no pixel takes the shear draw alone. */
  lemma EmptyImageDraws(src: Image, c: Config, d: nat -> Sample)
    requires src.Valid()
    requires src.width == 0 || src.height == 0
    ensures ShearDraw(src, c, d) == 0
    ensures Final(src, c, d).cols == src.cols
  {
    AreaIsProduct(src.width, src.height);
    Dissolve.ScanDraws(src, c, src.width, d);
  }

  /** Whatever the dissolve and brightening options, with zero mean and zero
      deviation of aberration the image `Final` gives, which a run writes
      whenever `gen_ratio` accepts its arguments, is the source with green
      and blue exchanged, each channel brightened. */
  lemma UnshearedRun(src: Image, c: Config, d: nat -> Sample)
    requires src.Valid()
    requires c.meanAberration == 0 && c.stdAberration == 0
    ensures forall x, y | 0 <= x < src.width && 0 <= y < src.height ::
              Final(src, c, d).At(x, y) == BrightenRgba(Swapped(src.At(x, y)), c.brightness)
    ensures c.brightness == 0 ==> Final(src, c, d) == SwapGreenBlue(src)
  {
    assert FinalShear(src, c, d) == 0;
    Aberration.StillAberration(src, c);
  }

  /** Every option zero. */
  const Zero: Config := Config(0, 0, 0, 0, 0, 0, 0, 0, 0, 0, 0)

  /** With every option zero `gen_ratio` accepts its arguments, so a run
      writes `Final`, and that is not the identity: it exchanges the green
      and blue channels of every pixel. */
  lemma ZeroRunSwaps(src: Image, d: nat -> Sample)
    requires src.Valid()
    ensures Dissolve.RatioAccepted(Zero, src.width, src.height)
    ensures Final(src, Zero, d) == SwapGreenBlue(src)
  {
    UnshearedRun(src, Zero, d);
  }

  /** The core applied with every option zero to its own output gives the
      source back: the exchange of green and blue undoes itself, whatever
      the draws of either application. */
  lemma ZeroRunTwice(src: Image, d: nat -> Sample, d': nat -> Sample)
    requires src.Valid()
    ensures Final(Final(src, Zero, d), Zero, d') == src
  {
    ZeroRunSwaps(src, d);
    ZeroRunSwaps(SwapGreenBlue(src), d');
    SwapGreenBlueInvolution(src);
  }

  /** With the command line's defaults, whose `block_height` is 15, a run on
      an image with at least one pixel panics exactly when the image is
      narrower than 15 columns. */
  lemma DefaultsNarrowPanic(src: Image)
    requires src.Valid() && 0 < src.width && 0 < src.height
    ensures !Dissolve.RatioAccepted(Defaults, src.width, src.height) <==> src.width < 15
  {}

  /** A one-pixel image whose green and blue differ, which a zero run
      therefore changes. */
  lemma ZeroRunChanges(d: nat -> Sample)
    ensures Final(Image(1, 1, [[Rgba(0, 1, 2, 3)]]), Zero, d) != Image(1, 1, [[Rgba(0, 1, 2, 3)]])
  {
    var src := Image(1, 1, [[Rgba(0, 1, 2, 3)]]);
    ZeroRunSwaps(src, d);
    assert SwapGreenBlue(src).At(0, 0) == Rgba(0, 2, 1, 3);
  }

  /** For an image of one colour p, the image `Final` gives, which a run
      writes whenever `gen_ratio` accepts its arguments, is the single colour
      p with green and blue exchanged and brightened, whatever the other
      options and the draws. */
  lemma SolidRun(src: Image, c: Config, d: nat -> Sample, p: Rgba)
    requires src.Valid()
    requires forall x, y | 0 <= x < src.width && 0 <= y < src.height :: src.At(x, y) == p
    ensures forall x, y | 0 <= x < src.width && 0 <= y < src.height ::
              Final(src, c, d).At(x, y) == BrightenRgba(Swapped(p), c.brightness)
  {
    Aberration.SolidAberration(src, c, FinalShear(src, c, d), p);
  }

  /** For a solid red image with brightness addition 10, `Final` is solid
      (9, 10, 10, 9), which a run writes whenever `gen_ratio` accepts its
      arguments: red and alpha lose one to the wrapped product, green
      and blue gain the addition. */
  lemma SolidRedRun(src: Image, c: Config, d: nat -> Sample)
    requires src.Valid()
    requires forall x, y | 0 <= x < src.width && 0 <= y < src.height ::
               src.At(x, y) == Rgba(255, 0, 0, 255)
    requires c.brightness == 10
    ensures forall x, y | 0 <= x < src.width && 0 <= y < src.height ::
              Final(src, c, d).At(x, y) == Rgba(9, 10, 10, 9)
  {
    SolidRun(src, c, d, Rgba(255, 0, 0, 255));
    BrightenByTen();
  }
}

=== FILE: pixels.dfy ===
/** RGBA pixels and images addressed by (x, y): the decoded source image and
    the `RgbaImage` output buffer of the corrupter. */
module Pixels {
  import opened Ints

  /** One `Rgba<u8>`; `.data` is `[r, g, b, a]`. */
  datatype Rgba = Rgba(r: U8, g: U8, b: U8, a: U8)

  /** `.data[i]` of a pixel. */
  function Channel(p: Rgba, i: nat): (v: U8)
    requires i < 4
    ensures v == [p.r, p.g, p.b, p.a][i]
  {
    match i
    case 0 => p.r
    case 1 => p.g
    case 2 => p.b
    case 3 => p.a
  }

  /** The pixel with its green and blue channels exchanged. */
  function Swapped(p: Rgba): (q: Rgba)
    ensures q.r == p.r && q.g == p.b && q.b == p.g && q.a == p.a
  {
    Rgba(p.r, p.b, p.g, p.a)
  }

  lemma SwappedInvolution(p: Rgba)
    ensures Swapped(Swapped(p)) == p
  {}

  /** A width x height grid; `cols[x][y]` is the pixel at (x, y), so a column
      is the run of pixels the x-major scan visits for one x. */
  datatype Image = Image(width: U32, height: U32, cols: seq<seq<Rgba>>)
  {
    predicate Valid()
    {
      && |cols| == width
      && forall x | 0 <= x < |cols| :: |cols[x]| == height
    }

    /** `get_pixel(x, y)` */
    function At(x: int, y: int): Rgba
      requires Valid()
      requires 0 <= x < width && 0 <= y < height
    {
      cols[x][y]
    }
  }

  /** The number of pixels in `width` columns of `height` rows, counted
      column by column as the scans visit them. */
  function Area(width: nat, height: nat): nat
  {
    Times(height, width)
  }

  lemma AreaIsProduct(width: nat, height: nat)
    ensures Area(width, height) == width * height
  {
    TimesIsProduct(height, width);
  }

  /** Rows 0 .. y-1 of a column whose row j holds `pick(j)`, in the order
      the inner loop of a pass puts them. */
  function Column(pick: U32 -> Rgba, y: U32): (column: seq<Rgba>)
    ensures |column| == y
  {
    if y == 0 then [] else Column(pick, y - 1) + [pick(y - 1)]
  }

  lemma {:induction false} ColumnAt(pick: U32 -> Rgba, y: U32)
    ensures forall j: U32 | j < y :: Column(pick, y)[j] == pick(j)
  {
    if y > 0 {
      ColumnAt(pick, y - 1);
    }
  }

  /** Column x of a grid whose pixel (x, y) is `pick(x, y)`. */
  function ColumnOf(pick: (U32, U32) -> Rgba, x: U32): U32 -> Rgba
  {
    (y: U32) => pick(x, y)
  }

  /** Columns 0 .. x-1 of a grid whose pixel (i, j) is `pick(i, j)`, in the
      order the outer loop of a pass puts them. */
  function Grid(pick: (U32, U32) -> Rgba, x: U32, height: U32): (cols: seq<seq<Rgba>>)
    ensures |cols| == x
    ensures forall i | 0 <= i < x :: |cols[i]| == height
  {
    if x == 0 then [] else Grid(pick, x - 1, height) + [Column(ColumnOf(pick, x - 1), height)]
  }

  lemma {:induction false} GridAt(pick: (U32, U32) -> Rgba, x: U32, height: U32)
    ensures forall i: U32, j: U32 | i < x && j < height :: Grid(pick, x, height)[i][j] == pick(i, j)
  {
    if x > 0 {
      GridAt(pick, x - 1, height);
      ColumnAt(ColumnOf(pick, x - 1), height);
      var g := Grid(pick, x, height);
      forall i: U32, j: U32 | i < x && j < height
        ensures g[i][j] == pick(i, j)
      {
        if i < x - 1 {
          assert g[i] == Grid(pick, x - 1, height)[i];
        } else {
          assert g[i] == Column(ColumnOf(pick, x - 1), height);
        }
      }
    }
  }

  predicate SameShape(a: Image, b: Image)
  {
    a.width == b.width && a.height == b.height
  }

  /** `ImageBuffer::new(width, height)`: every channel zero. */
  function Blank(width: U32, height: U32): (img: Image)
    ensures img.Valid()
    ensures img.width == width && img.height == height
    ensures forall x, y | 0 <= x < width && 0 <= y < height :: img.At(x, y) == Rgba(0, 0, 0, 0)
  {
    Image(width, height, seq(width, _ => seq(height, _ => Rgba(0, 0, 0, 0))))
  }

  /** Two images of one shape that agree at every coordinate are equal. */
  lemma Extensional(a: Image, b: Image)
    requires a.Valid() && b.Valid() && SameShape(a, b)
    requires forall x, y | 0 <= x < a.width && 0 <= y < a.height :: a.At(x, y) == b.At(x, y)
    ensures a == b
  {
    forall x | 0 <= x < a.width
      ensures a.cols[x] == b.cols[x]
    {
      assert forall y | 0 <= y < a.height :: a.cols[x][y] == a.At(x, y);
    }
  }

  /** Every pixel with green and blue exchanged. */
  function SwapGreenBlue(img: Image): (out: Image)
    requires img.Valid()
    ensures out.Valid() && SameShape(out, img)
    ensures forall x, y | 0 <= x < img.width && 0 <= y < img.height ::
              out.At(x, y) == Swapped(img.At(x, y))
  {
    Image(img.width, img.height,
          seq(img.width, x requires 0 <= x < img.width =>
                seq(img.height, y requires 0 <= y < img.height => Swapped(img.cols[x][y]))))
  }

  lemma SwapGreenBlueInvolution(img: Image)
    requires img.Valid()
    ensures SwapGreenBlue(SwapGreenBlue(img)) == img
  {
    var twice := SwapGreenBlue(SwapGreenBlue(img));
    forall x, y | 0 <= x < img.width && 0 <= y < img.height
      ensures twice.At(x, y) == img.At(x, y)
    {
      SwappedInvolution(img.At(x, y));
    }
    Extensional(twice, img);
  }
}

=== FILE: primitives.dfy ===
/** The three integer helpers every pass uses: `modified_pixel`, `offset` and
    `brighten_pixels`, and the generator draws `offset` consumes. */
module Primitives {
  import opened Ints
  import opened Pixels

  /** `modified_pixel`: a u32 wrapping add, widened to i64, then Rust's `%`
      by the bound and `try_into::<u32>().unwrap()`. The unwrap cannot fail:
      the widened sum is never negative, so neither is the remainder. A zero
      bound divides by zero and panics. */
  function ModifiedPixel(coord: U32, offset: U32, bound: U32): (r: U32)
    requires bound > 0
    ensures r < bound
  {
    var sum: I64 := WrapU32(coord + offset);
    var rem := Rem(sum, bound);
    TryIntoU32(rem).value
  }

  /** A position taken modulo 2^32 and then modulo a bound: where
      `modified_pixel` lands, by `ModifiedPixelValue`. */
  function Reduce(v: int, bound: U32): (r: U32)
    requires bound > 0
    ensures r < bound
  {
    v % U32_MODULUS % bound
  }

  /** The value `modified_pixel` computes: the u32 sum reduced modulo the bound. */
  lemma ModifiedPixelValue(coord: U32, offset: U32, bound: U32)
    requires bound > 0
    ensures ModifiedPixel(coord, offset, bound) == Reduce(coord + offset, bound)
  {}

  /** A zero offset leaves an in-bounds coordinate where it is. */
  lemma ModifiedPixelNoOffset(coord: U32, bound: U32)
    requires coord < bound
    ensures ModifiedPixel(coord, 0, bound) == coord
  {
    ModifiedPixelValue(coord, 0, bound);
    SmallMod(coord, bound);
  }

  /** `modified_pixel(0, y, y_max)` is just `y` for an in-bounds `y`. */
  lemma ModifiedPixelFromZero(coord: U32, bound: U32)
    requires coord < bound
    ensures ModifiedPixel(0, coord, bound) == coord
  {
    ModifiedPixelValue(0, coord, bound);
    SmallMod(coord, bound);
  }

  /** A read at `modified_pixel(coord, offset)` in row `modified_pixel(0, y)`,
      as the two later passes make them, is the read at the reduced column in
      row y. */
  lemma ShiftedRead(img: Image, coord: U32, offset: U32, y: U32)
    requires img.Valid() && 0 < img.width && y < img.height
    ensures img.At(ModifiedPixel(coord, offset, img.width), ModifiedPixel(0, y, img.height))
            == img.At(Reduce(coord + offset, img.width), y)
  {
    ModifiedPixelValue(coord, offset, img.width);
    ModifiedPixelFromZero(y, img.height);
  }

  /** One call on the shared generator. Each call site reads the component of
      the type it asks for: `gen_ratio` the coin, `sample::<i64>` the signed
      value, `sample::<u32>` the unsigned one. */
  datatype Sample = Sample(coin: bool, signed: I64, unsigned: U32)

  /** `offset::<i64, i64>`: one draw times the magnitude, wrapping in i64. */
  function OffsetI64(s: Sample, magnitude: I64): (r: I64)
    ensures (s.signed * magnitude - r) % I64_MODULUS == 0
    ensures magnitude == 0 ==> r == 0
    ensures magnitude == 1 ==> r == s.signed
  {
    WrapI64(s.signed * magnitude)
  }

  /** `offset::<u32, u32>`: one draw times the magnitude, wrapping in u32. */
  function OffsetU32(s: Sample, magnitude: U32): (r: U32)
    ensures (s.unsigned * magnitude - r) % U32_MODULUS == 0
    ensures magnitude == 0 ==> r == 0
    ensures magnitude == 1 ==> r == s.unsigned
  {
    WrapU32(s.unsigned * magnitude)
  }

  /** `brighten_pixels`: `p - p * a / 255 + a` in `Wrapping<u8>`. The wrapped
      product divided by 255 is 1 only when the product is 255 modulo 256,
      so the channel loses at most one before `a` is added back. */
  function Brighten(pixel: U8, addition: U8): (r: U8)
    ensures var loss := if pixel * addition % U8_MODULUS == 255 then 1 else 0;
            r == (pixel - loss + addition) % U8_MODULUS
    ensures addition == 0 ==> r == pixel
  {
    WrapU8(WrapU8(pixel - WrapU8(pixel * addition) / 255) + addition)
  }

  /** With the largest addition every channel drops by one modulo 256, except
      that 1 (whose product with 255 is 255 modulo 256) also goes to 255. */
  lemma BrightenFull(pixel: U8)
    ensures Brighten(pixel, 255) == if pixel == 1 then 255 else (pixel + 255) % U8_MODULUS
  {
    if pixel != 0 {
      assert pixel * 255 == (pixel - 1) * U8_MODULUS + (U8_MODULUS - pixel);
      assert pixel * 255 % U8_MODULUS == U8_MODULUS - pixel;
    }
  }

  /** The values a solid red pixel's channels take with addition 10. */
  lemma BrightenByTen()
    ensures Brighten(255, 10) == 9
    ensures Brighten(0, 10) == 10
  {
    assert Brighten(255, 10) == 9;
  }

  /** 100 with the largest addition, by the formula above. */
  lemma BrightenHundredFull()
    ensures Brighten(100, 255) == 99
  {
    BrightenFull(100);
  }

  /** Each of the four channels brightened, as every pass after the first writes them. */
  function BrightenRgba(p: Rgba, addition: U8): (q: Rgba)
    ensures addition == 0 ==> q == p
    ensures q.r == Brighten(p.r, addition) && q.g == Brighten(p.g, addition)
    ensures q.b == Brighten(p.b, addition) && q.a == Brighten(p.a, addition)
  {
    Rgba(Brighten(p.r, addition), Brighten(p.g, addition),
         Brighten(p.b, addition), Brighten(p.a, addition))
  }
}
